=== FILE: README.md ===
# MultiCurrency::ConvertibleCurrency in Dafny

A model of `ConvertibleCurrency`, the money value of the `multi_currency`
Ruby library. It holds an amount (`base_value`), an optional currency tag
(no tag makes it an "anonymous" value) and a reference year. It parses
grouped and decimal strings, does arithmetic, compares, converts between
currencies through an exchange-rate lookup, and renders itself as text.

The model follows what the code does, including where that differs from
what the code seems to intend:

- `to_currency` assigns the new currency before it calls `in`, so it only
  relabels the value.
- All the operators go through `to_currency`. So they never convert. They
  leave the operand relabelled, and the result gets the receiver's
  currency and the current year, because no year is passed
  (`Arithmetic.Apply`).
- `"$1,234.56"` keeps its '$' through the rewrite
  (`AmountText.RewriteKeepsSymbol`), so `to_f` reads 0 from it.
- A value whose year is nil (after `to_currency`) gets the current year
  when `in` converts it (`MultiCurrency.InConverts`).

A "## Findings" section below gives the corrected behaviour next to the
code as written.

Files and modules:

- `wrappers.dfy` (`Wrappers`): `Option` (`None` is Ruby's `nil`; `Or` is
  Ruby's `||`) and `Result`.
- `amount_text.dfy` (`AmountText`): the two regex rewrites the constructor
  applies to a string before `to_f`.
- `multi_currency.dfy` (`MultiCurrency`): the record, the constructor, `in`
  and `to_currency`.
- `arithmetic.dfy` (`Arithmetic`): `+ - * /`, `==`, `===` and `<=>`.
- `display.dfy` (`Display`): `to_i`, `to_f`, `to_s` and Float's `round`.
- `repaired.dfy` (`Repaired`): the corrected `to_currency` and operators.

How the model represents the Ruby code:

- Ruby objects change in place. Here, each operation that assigns to an
  instance variable returns the updated record too.
- `in` returns a `Returned` value. `Receiver(after)` means it returned
  `self`, possibly retagged in place. `Fresh(result)` means it built a new
  object and left the receiver alone.
- The database behind `ExchangeRate.find_rate` is a finite map from
  `(from, to, year)` to a rate. A missing key is the rescued
  `RecordNotFound`.
- `Time.now.year` becomes the parameter `now`.
- `MultiCurrency.output_currency` becomes the parameter `override`.
- `number_with_delimiter` becomes the function parameter `delimit`.
- `String#to_f` becomes the function parameter `toF`.
- Float amounts are `real`.

## Model

| member | source | states |
|---|---|---|
| `AmountText.StripGroupsOnlyDeletesSeparators` | lib/multi_currency/convertible_currency.rb:15 | the group-removal pass only deletes characters, and each deleted one is a non-digit directly followed by three digits |
| `AmountText.StripGroupsDropsEveryWindow` | lib/multi_currency/convertible_currency.rb:15 | the group-removal pass (`AmountText.StripGroups`) returns the input with exactly the characters that start a non-digit-plus-three-digits window deleted: every such separator goes, and nothing else |
| `AmountText.StripGroupsKeepsDigits` | lib/multi_currency/convertible_currency.rb:15 | every digit survives the group-removal pass, in its original order |
| `AmountText.StripGroupsUnchangedIff` | lib/multi_currency/convertible_currency.rb:15 | the group-removal pass leaves a string unchanged exactly when it has no non-digit followed by three digits |
| `AmountText.FirstDecimalMatch` | lib/multi_currency/convertible_currency.rb:15 | the regex engine's scan finds the leftmost match of `\D\d{1,2}$`, or reports that there is none at or after the start position |
| `AmountText.Decimal` | lib/multi_currency/convertible_currency.rb:15 | the decimal pass keeps the length; a character changes only to '.', and only at the leftmost match; that position always ends up '.' |
| `AmountText.DecimalChangesAtMostOne` | lib/multi_currency/convertible_currency.rb:15 | the decimal pass changes at most one character, and changes nothing when no non-digit precedes a 1–2 digit run at a line end |
| `AmountText.DecimalChangesIff` | lib/multi_currency/convertible_currency.rb:15 | the decimal pass changes the string exactly when the leftmost match's non-digit is not already '.' |
| `AmountText.DecimalKeepsDigits` | lib/multi_currency/convertible_currency.rb:15 | the decimal pass keeps every digit |
| `AmountText.RewriteKeepsDigits` | lib/multi_currency/convertible_currency.rb:15 | the text handed to `to_f` has exactly the digits of the input, in order |
| `AmountText.RewriteEuropean` | lib/multi_currency/convertible_currency.rb:15 | "1.234,56" is rewritten to "1234.56" |
| `AmountText.RewriteKeepsSymbol` | lib/multi_currency/convertible_currency.rb:15 | "$1,234.56" is rewritten to "$1234.56"; the '$' stays in front of the number |
| `MultiCurrency.New` | lib/multi_currency/convertible_currency.rb:8-10 | a constructed value keeps the amount and currency it was given, and always has a year: the given one, or the current year when omitted or nil |
| `MultiCurrency.NewFromText` | lib/multi_currency/convertible_currency.rb:13-18 | a string amount is what `to_f` reads from the text after both rewrites, a text no longer than the input and with exactly the input's digits in order; the currency is kept; the year is the given one, or the current year when omitted or nil |
| `MultiCurrency.In` | lib/multi_currency/convertible_currency.rb:81-104 | on success with a non-blank target, the result carries the target currency; returning `self` keeps amount and year; a new value exists only when a rate for (currency, target, year) exists and holds amount × rate; failure only for a non-blank target other than the current currency |
| `MultiCurrency.InNoOp` | lib/multi_currency/convertible_currency.rb:83 | a blank target or the value's own currency returns the receiver unchanged for every rate table, with no lookup key |
| `MultiCurrency.InRetagsAnonymousZero` | lib/multi_currency/convertible_currency.rb:86-89 | an anonymous zero is retagged in place with the target; amount and year are kept; no lookup; never fails |
| `MultiCurrency.InRejectsAnonymous` | lib/multi_currency/convertible_currency.rb:91-93 | a non-zero anonymous value fails with `ConversionOfAnonymousCurrency` naming the target, for every rate table |
| `MultiCurrency.InConverts` | lib/multi_currency/convertible_currency.rb:95-103 | with a known, different currency: a rate gives a new value of amount × rate in the target currency with the same year (the current year if none); no rate gives `ExchangeRateUnavailable(from, to, year)` |
| `MultiCurrency.InFailsIff` | lib/multi_currency/convertible_currency.rb:83-101 | exactly when `in` raises, and exactly when the error is the anonymous-currency one |
| `MultiCurrency.InLooksUpOnlyItsKey` | lib/multi_currency/convertible_currency.rb:95-101 | `in` reads the rate table at most at the single key (currency, target, year), and not at all on the early paths |
| `MultiCurrency.InRoundTrip` | lib/multi_currency/convertible_currency.rb:95-103 | for a value that has a year, converting there and back with reciprocal rates returns the original amount, currency and year |
| `MultiCurrency.ToCurrency` | lib/multi_currency/convertible_currency.rb:74-79 | `to_currency(c, y)` never fails and never converts: it returns the receiver with amount unchanged, currency `c` and year `y` |
| `Arithmetic.Relabel` | lib/multi_currency/convertible_currency.rb:74-79 | after `other.to_currency(c)` the operand has the same amount, currency `c` and no year |
| `Arithmetic.Apply` | lib/multi_currency/convertible_currency.rb:24-38 | `a OP b` has amount `a.amount OP b.amount`, currency `a.currency` (possibly nil) and the current year; afterwards `b` has `a`'s currency and no year |
| `Arithmetic.ApplyIgnoresRates` | lib/multi_currency/convertible_currency.rb:24-38 | the operators give the same outcome under every rate table: they never look up a rate |
| `Arithmetic.AnonymousReceiverStaysAnonymous` | lib/multi_currency/convertible_currency.rb:25 | an anonymous receiver and a tagged operand give an anonymous result and leave the operand anonymous |
| `Arithmetic.Equal` | lib/multi_currency/convertible_currency.rb:40-42 | `==` holds exactly when the raw amounts are equal; the operand loses its currency and year |
| `Arithmetic.CaseEqual` | lib/multi_currency/convertible_currency.rb:44-46 | `===` holds exactly when the raw amounts are equal; the operand takes the receiver's currency and loses its year |
| `Arithmetic.Compare` | lib/multi_currency/convertible_currency.rb:48-50 | `<=>` is negative, zero or positive exactly as the raw amounts compare; the operand takes the receiver's currency and loses its year |
| `Arithmetic.ComparisonsAgree` | lib/multi_currency/convertible_currency.rb:40-50 | `==`, `===` and `<=>` answering 0 agree on every pair of values |
| `Arithmetic.CompareAntisymmetric` | lib/multi_currency/convertible_currency.rb:48-50 | swapping the operands negates `<=>`; retagging either side with any currency, or none, does not change the answer |
| `Arithmetic.CompareTransitive` | lib/multi_currency/convertible_currency.rb:48-50 | the `<` that `Comparable` derives from `<=>` is transitive |
| `Display.Round` | lib/multi_currency/convertible_currency.rb:56 | Float#round lands within 1/2 of the amount, and ties go away from zero |
| `Display.RoundIsNearest` | lib/multi_currency/convertible_currency.rb:56 | no integer is closer to the amount than its rounding |
| `Display.RoundIsOdd` | lib/multi_currency/convertible_currency.rb:56 | rounding a negated amount negates the rounding |
| `Display.ToI` | lib/multi_currency/convertible_currency.rb:55-57 | `to_i` is the raw amount rounded to the nearest integer, halves away from zero; nothing is converted |
| `Display.ToS` | lib/multi_currency/convertible_currency.rb:63-72 | without an override `to_s` never fails and leaves the value alone; with `unit` and a display currency the text ends in " <currency>"; without `unit` it is a delimited number; it fails only with an override other than the value's currency; with a non-blank override it permanently retags an anonymous zero |
| `Display.ToSInOwnCurrency` | lib/multi_currency/convertible_currency.rb:63-72 | without an override the text is the value's own rounded amount, delimited, with " <currency>" when it has one and `unit` is set |
| `Display.ToSConverts` | lib/multi_currency/convertible_currency.rb:63-72 | with an override and a rate, the number shown is amount × rate, rounded, followed by " <override>" when `unit` is set (the default); the receiver is untouched |
| `Repaired.ConvertTo` | lib/multi_currency/convertible_currency.rb:74-79 | corrected `to_currency`: on success with a non-blank target the result is in the target currency; it fails only for a target other than the value's own currency |
| `Repaired.ConvertToConverts` | lib/multi_currency/convertible_currency.rb:74-79 | corrected `to_currency` with a rate from the value's own currency yields a new value of amount × rate in the target currency |
| `Repaired.ConvertToAgreesWhenNothingToConvert` | lib/multi_currency/convertible_currency.rb:74-79 | for the value's own currency and its own year, the corrected and the written `to_currency` agree |
| `Repaired.ConvertToKeepsYearWhereToCurrencyErasesIt` | lib/multi_currency/convertible_currency.rb:74-79 | with the default nil year and the value's own currency, the written `to_currency` sets the year to nil while the corrected one keeps it, so the two differ |
| `Repaired.ToCurrencyRelabelsInsteadOfConverting` | lib/multi_currency/convertible_currency.rb:74-79 | 10 USD with USD→EUR = 0.5: as written 10 EUR, corrected 5 EUR |
| `Repaired.ApplyConverted` | lib/multi_currency/convertible_currency.rb:24-38 | corrected operators: the result takes the receiver's currency, or else the operand's, and the current year; they fail only when a tagged receiver meets an operand in another currency |
| `Repaired.ApplyConvertedConverts` | lib/multi_currency/convertible_currency.rb:24-38 | corrected operators across two known currencies combine with the operand's amount × rate and leave the operand as it was |
| `Repaired.ApplyConvertedAgreesOnSameCurrency` | lib/multi_currency/convertible_currency.rb:24-38 | with equal currencies the corrected and the written operators give the same result |
| `Repaired.ApplyConvertedInheritsCurrency` | lib/multi_currency/convertible_currency.rb:24-38 | corrected operators: an anonymous receiver takes the operand's currency and leaves the operand untouched |
| `Repaired.OperatorsIgnoreCurrencies` | lib/multi_currency/convertible_currency.rb:24-38 | 10 USD + 5 EUR with EUR→USD = 2: 15 as written, 20 corrected; anonymous 0 + 5 USD: anonymous as written, USD corrected |

`to_f` (`Display.ToF`) is the identity on the amount and needs no
contract.

## Left out

- `String#to_f` at line 15 is the function parameter `toF`: Ruby's
  float-literal grammar is not modelled. The rewrite does not strip a
  leading currency symbol, and `to_f` then stops at it. Line 17's
  `value.to_f` on a non-string is taken to be the `real` passed to
  `MultiCurrency.New`; `new(nil)` (0.0 through `nil.to_f`) and other
  objects are not modelled.
- Float precision, rounding error, NaN and infinities: amounts are exact reals.
- Arithmetic.Apply: requires a non-zero divisor amount for `/`, because Float
  division by zero gives an infinity or NaN, which a real cannot hold.
- Repaired.ApplyConverted: for `/` it also requires every rate to be
  positive, so that a converted divisor cannot become zero.
- `@@rates_cache` (line 11) is reset on every construction and never read,
  so it has no behaviour. No memoisation of rate lookups is modelled.
- `ExchangeRate.find_rate` and its ActiveRecord errors (lines 96-101) are a
  finite map; a missing key is the rescued error.
- `number_with_delimiter` (line 65) is the parameter `delimit`.
- `MultiCurrency.output_currency` (line 64) is the parameter `override`.
- `Time.now.year` (lines 8 and 10) is the parameter `now`.
- `Comparable`'s `<`, `<=`, `>`, `>=`, `between?` and `clamp` are not
  separate members. `Arithmetic.Compare` and `Arithmetic.CompareTransitive`
  state the order they derive from.
- Aliasing: `a + a`, `a == a` and the like relabel the receiver itself
  through `to_currency`. The model treats the operand as a different object
  from the receiver.
- Currencies are strings, and years are integers or nil. Ruby would also
  accept symbols, `false` and other objects here.
- Operands that are not `ConvertibleCurrency` values raise `NoMethodError`
  at `to_currency`. The model's types exclude them.
- `blank?` comes from ActiveSupport, which is not part of this model. It is
  taken to ignore the ASCII whitespace characters (space, tab, line feed,
  vertical tab, form feed, carriage return). Unicode spaces are not treated
  as blank.
- The attribute readers `base_value` and `currency` (line 6) are the record's
  fields.

## Findings

| source | as written | input that shows it | evidently intended | confidence | as-written member | corrected member |
|---|---|---|---|---|---|---|
| lib/multi_currency/convertible_currency.rb:74-79 | `to_currency` assigns `@currency = currency` before calling `in(currency)`, so `in` always takes its "already in that currency" exit and only relabels the value | 10 USD (2020), rate USD→EUR for 2020 = 0.5, `to_currency("EUR", 2020)` gives 10 EUR | 5 EUR: convert from the currency the value had before the call | high; not executed | `MultiCurrency.ToCurrency`, `Repaired.ToCurrencyRelabelsInsteadOfConverting` | `Repaired.ConvertTo`, `Repaired.ConvertToConverts` |
| lib/multi_currency/convertible_currency.rb:24-38 | the operators take the operand's amount after `to_currency`, which never converts it, and pick the result currency (receiver's, else operand's) only after the operand's currency was overwritten | 10 USD + 5 EUR with EUR→USD = 2 gives 15 USD; anonymous 0 + 5 USD gives an anonymous 5 | 20 USD; 5 USD | high; not executed | `Arithmetic.Apply`, `Repaired.OperatorsIgnoreCurrencies` | `Repaired.ApplyConverted`, `Repaired.ApplyConvertedConverts` |

=== FILE: amount_text.dfy ===
/** The two regular-expression rewrites the constructor applies to a string
    amount before handing it to Ruby's `String#to_f`: a global substitution
    of `\D\d{3}` by its three digits, then a single substitution of
    `\D\d{1,2}$` by a '.' followed by its digits.

    The first pass drops every thousands separator (a non-digit followed by
    three digits), scanning left to right without overlap; the second turns
    the non-digit in front of a trailing one- or two-digit run into a decimal
    point. `\d` is the ASCII digit class and `$` matches at the end of the
    string or in front of any line feed, as in Ruby. */
module AmountText {

  import opened Wrappers

  predicate IsDigit(c: char) {
    '0' <= c <= '9'
  }

  /** The digits of `s`, in order. */
  function Digits(s: string): (d: string)
    ensures |d| <= |s|
    ensures forall i :: 0 <= i < |d| ==> IsDigit(d[i])
  {
    if |s| == 0 then []
    else (if IsDigit(s[0]) then [s[0]] else []) + Digits(s[1..])
  }

  lemma {:induction false} DigitsAppend(a: string, b: string)
    ensures Digits(a + b) == Digits(a) + Digits(b)
    decreases |a|
  {
    if |a| == 0 {
      assert a + b == b;
    } else {
      assert (a + b)[1..] == a[1..] + b;
      DigitsAppend(a[1..], b);
    }
  }

  // ---------------------------------------------------------------------
  // First pass: thousands separators
  // ---------------------------------------------------------------------

  /** A match of `\D\d{3}` starts at position `i` of `s`. */
  predicate GroupWindow(s: string, i: nat) {
    i + 3 < |s| && !IsDigit(s[i]) && IsDigit(s[i + 1]) && IsDigit(s[i + 2]) && IsDigit(s[i + 3])
  }

  /** The global substitution: at each position either a window matches, and
      its three digits are emitted and scanning resumes after them, or the
      character is copied and scanning moves on by one. */
  function StripGroups(s: string): (r: string)
    ensures |r| <= |s|
    decreases |s|
  {
    if |s| == 0 then []
    else if GroupWindow(s, 0) then s[1..4] + StripGroups(s[4..])
    else [s[0]] + StripGroups(s[1..])
  }

  /** `r` arises from `s` by deleting characters each of which starts a
      `\D\d{3}` window of `s`, and by nothing else. */
  ghost predicate GroupDeletion(s: string, r: string)
    decreases |s|
  {
    if |s| == 0 then r == []
    else
      || (|r| > 0 && r[0] == s[0] && GroupDeletion(s[1..], r[1..]))
      || (GroupWindow(s, 0) && GroupDeletion(s[1..], r))
  }

  lemma {:induction false} GroupDeletionKeepsPrefix(s: string, r: string, k: nat)
    requires k <= |s|
    requires GroupDeletion(s[k..], r)
    ensures GroupDeletion(s, s[..k] + r)
    decreases k
  {
    if k > 0 {
      var t := s[1..];
      assert t[k - 1..] == s[k..];
      GroupDeletionKeepsPrefix(t, r, k - 1);
      var whole := s[..k] + r;
      assert whole[0] == s[0];
      assert whole[1..] == t[..k - 1] + r;
      assert GroupDeletion(s[1..], whole[1..]);
    } else {
      assert s[..k] + r == r && s[k..] == s;
    }
  }

  /** The first pass only deletes characters, and each deleted character is
      a non-digit immediately followed by three digits. */
  lemma {:induction false} StripGroupsOnlyDeletesSeparators(s: string)
    ensures GroupDeletion(s, StripGroups(s))
    decreases |s|
  {
    if |s| == 0 {
    } else if GroupWindow(s, 0) {
      StripGroupsOnlyDeletesSeparators(s[4..]);
      var t := s[1..];
      assert t[3..] == s[4..];
      GroupDeletionKeepsPrefix(t, StripGroups(s[4..]), 3);
      assert t[..3] == s[1..4];
    } else {
      StripGroupsOnlyDeletesSeparators(s[1..]);
    }
  }

  /** Deleting separators preserves the digits and their order. */
  lemma {:induction false} GroupDeletionKeepsDigits(s: string, r: string)
    requires GroupDeletion(s, r)
    ensures Digits(r) == Digits(s)
    decreases |s|
  {
    if |s| > 0 {
      if |r| > 0 && r[0] == s[0] && GroupDeletion(s[1..], r[1..]) {
        GroupDeletionKeepsDigits(s[1..], r[1..]);
      } else {
        GroupDeletionKeepsDigits(s[1..], r);
      }
    }
  }

  /** All digits survive the first pass, in their original order. */
  lemma StripGroupsKeepsDigits(s: string)
    ensures Digits(StripGroups(s)) == Digits(s)
  {
    StripGroupsOnlyDeletesSeparators(s);
    GroupDeletionKeepsDigits(s, StripGroups(s));
  }

  lemma {:induction false} StripGroupsShrinksOnMatch(s: string, i: nat)
    requires GroupWindow(s, i)
    ensures |StripGroups(s)| < |s|
    decreases |s|
  {
    if !GroupWindow(s, 0) {
      assert GroupWindow(s[1..], i - 1);
      StripGroupsShrinksOnMatch(s[1..], i - 1);
    }
  }

  lemma {:induction false} StripGroupsKeepsWindowless(s: string)
    requires forall i: nat :: !GroupWindow(s, i)
    ensures StripGroups(s) == s
    decreases |s|
  {
    if |s| > 0 {
      assert !GroupWindow(s, 0);
      forall i: nat
        ensures !GroupWindow(s[1..], i)
      {
        assert !GroupWindow(s, i + 1);
      }
      StripGroupsKeepsWindowless(s[1..]);
      assert [s[0]] + s[1..] == s;
    }
  }

  /** The first pass leaves the string unchanged exactly when no
      thousands-separator window occurs in it. */
  lemma StripGroupsUnchangedIff(s: string)
    ensures StripGroups(s) == s <==> forall i: nat :: !GroupWindow(s, i)
  {
    if forall i: nat :: !GroupWindow(s, i) {
      StripGroupsKeepsWindowless(s);
    } else {
      var i: nat :| GroupWindow(s, i);
      StripGroupsShrinksOnMatch(s, i);
    }
  }

  /** `s` with exactly the characters removed that start a `\D\d{3}` window
      of `s` itself, every other character kept in order. */
  ghost function DropWindows(s: string): string
    decreases |s|
  {
    if |s| == 0 then []
    else (if GroupWindow(s, 0) then [] else [s[0]]) + DropWindows(s[1..])
  }

  /** A string that starts with a digit keeps that digit: a window starts
      with a non-digit. */
  lemma DropWindowsKeepsLeadingDigit(t: string)
    requires |t| > 0 && IsDigit(t[0])
    ensures DropWindows(t) == [t[0]] + DropWindows(t[1..])
  {
  }

  /** The first pass removes every thousands separator, not just some: its
      output is the input with exactly its window-starting characters
      deleted. Windows never overlap, because the three characters after a
      separator are digits and so cannot start a window themselves. */
  lemma {:induction false} StripGroupsDropsEveryWindow(s: string)
    ensures StripGroups(s) == DropWindows(s)
    decreases |s|
  {
    if |s| > 0 {
      if GroupWindow(s, 0) {
        StripGroupsDropsEveryWindow(s[4..]);
        var t1, t2, t3 := s[1..], s[2..], s[3..];
        assert t1[1..] == t2 && t2[1..] == t3 && t3[1..] == s[4..];
        DropWindowsKeepsLeadingDigit(t3);
        DropWindowsKeepsLeadingDigit(t2);
        DropWindowsKeepsLeadingDigit(t1);
        assert s[1..4] == [t1[0], t2[0], t3[0]];
      } else {
        StripGroupsDropsEveryWindow(s[1..]);
      }
    }
  }

  // ---------------------------------------------------------------------
  // Second pass: decimal point
  // ---------------------------------------------------------------------

  /** Ruby's `$`: end of the string or just before a line feed. */
  predicate LineEnd(s: string, j: nat) {
    j == |s| || (j < |s| && s[j] == '\n')
  }

  /** A match of `\D\d{1,2}$` starts at position `i` of `s`. */
  predicate DecimalMatch(s: string, i: nat) {
    && i + 1 < |s|
    && !IsDigit(s[i])
    && IsDigit(s[i + 1])
    && (LineEnd(s, i + 2) || (i + 2 < |s| && IsDigit(s[i + 2]) && LineEnd(s, i + 3)))
  }

  /** The leftmost match at or after position `from`, as the regex engine
      scans for it. */
  function FirstDecimalMatch(s: string, from: nat): (r: Option<nat>)
    ensures r.Some? ==> from <= r.value < |s| && DecimalMatch(s, r.value)
    ensures r.Some? ==> forall j: nat :: from <= j < r.value ==> !DecimalMatch(s, j)
    ensures r.None? ==> forall j: nat :: from <= j ==> !DecimalMatch(s, j)
    decreases |s| - from
  {
    if from >= |s| then None
    else if DecimalMatch(s, from) then Some(from)
    else FirstDecimalMatch(s, from + 1)
  }

  /** `i` is where the regex engine finds its match: the leftmost one. */
  predicate Leftmost(s: string, i: nat) {
    DecimalMatch(s, i) && forall j: nat :: j < i ==> !DecimalMatch(s, j)
  }

  /** `sub` replaces the first match only: its leading non-digit becomes
      '.', the digits it captured are written back unchanged. */
  function Decimal(s: string): (r: string)
    ensures |r| == |s|
    ensures forall j :: 0 <= j < |s| && r[j] != s[j] ==> r[j] == '.' && Leftmost(s, j)
    ensures forall i: nat :: Leftmost(s, i) ==> r[i] == '.'
  {
    match FirstDecimalMatch(s, 0)
    case None => s
    case Some(i) => s[..i] + ['.'] + s[i + 1..]
  }

  /** At most one character changes, and none at all when nothing matches. */
  lemma DecimalChangesAtMostOne(s: string)
    ensures forall j, k :: 0 <= j < k < |s| && Decimal(s)[j] != s[j] ==> Decimal(s)[k] == s[k]
    ensures (forall i: nat :: !DecimalMatch(s, i)) ==> Decimal(s) == s
  {
    var r := Decimal(s);
    forall j, k | 0 <= j < k < |s| && r[j] != s[j]
      ensures r[k] == s[k]
    {
      assert Leftmost(s, j);
    }
    if forall i: nat :: !DecimalMatch(s, i) {
      forall j | 0 <= j < |s|
        ensures r[j] == s[j]
      {
        assert !DecimalMatch(s, j);
      }
    }
  }

  /** The second pass changes the string exactly when the leftmost match's
      non-digit is not already a '.'. */
  lemma DecimalChangesIff(s: string)
    ensures Decimal(s) != s <==> exists i: nat :: Leftmost(s, i) && s[i] != '.'
  {
    var r := Decimal(s);
    if r != s {
      var j :| 0 <= j < |s| && r[j] != s[j];
      assert Leftmost(s, j) && s[j] != '.';
    } else {
      forall i: nat | Leftmost(s, i)
        ensures s[i] == '.'
      {
        assert r[i] == '.';
      }
    }
  }

  /** The second pass keeps every digit in place. */
  lemma DecimalKeepsDigits(s: string)
    ensures Digits(Decimal(s)) == Digits(s)
  {
    match FirstDecimalMatch(s, 0)
    case None =>
    case Some(i) =>
      assert s == s[..i] + [s[i]] + s[i + 1..];
      DigitsAppend(s[..i] + [s[i]], s[i + 1..]);
      DigitsAppend(s[..i], [s[i]]);
      DigitsAppend(s[..i] + ['.'], s[i + 1..]);
      DigitsAppend(s[..i], ['.']);
  }

  // ---------------------------------------------------------------------
  // Both passes
  // ---------------------------------------------------------------------

  /** The text handed to `to_f`. */
  function Rewrite(s: string): string {
    Decimal(StripGroups(s))
  }

  /** The rewrite never adds, drops or reorders a digit. */
  lemma RewriteKeepsDigits(s: string)
    ensures Digits(Rewrite(s)) == Digits(s)
  {
    StripGroupsKeepsDigits(s);
    DecimalKeepsDigits(StripGroups(s));
  }

  /** European grouping: the '.' separator goes, the ',' becomes the decimal
      point. */
  lemma RewriteEuropean()
    ensures Rewrite("1.234,56") == "1234.56"
  {
    assert StripGroups("") == "";
    assert StripGroups("6") == "6";
    assert StripGroups("56") == "56";
    assert StripGroups(",56") == ",56";
    assert StripGroups(".234,56") == "234" + StripGroups(",56");
    assert StripGroups("1.234,56") == "1234,56";
    var s := "1234,56";
    assert !DecimalMatch(s, 0) && !DecimalMatch(s, 1) && !DecimalMatch(s, 2) && !DecimalMatch(s, 3);
    assert DecimalMatch(s, 4);
    assert FirstDecimalMatch(s, 0) == Some(4);
    assert Decimal(s) == s[..4] + ['.'] + s[5..];
  }

  /** A currency symbol in front survives both passes, so `to_f` stops at it
      and the amount is zero. */
  lemma RewriteKeepsSymbol()
    ensures Rewrite("$1,234.56") == "$1234.56"
  {
    assert StripGroups("") == "";
    assert StripGroups("6") == "6";
    assert StripGroups("56") == "56";
    assert StripGroups(".56") == ".56";
    assert StripGroups(",234.56") == "234" + StripGroups(".56");
    assert StripGroups("1,234.56") == "1234.56";
    assert StripGroups("$1,234.56") == "$1234.56";
    var s := "$1234.56";
    assert DecimalMatch(s, 5);
    assert forall j: nat :: j < 5 ==> !DecimalMatch(s, j);
    assert Decimal(s)[5] == '.';
    assert Decimal(s) == s;
  }

}

=== FILE: arithmetic.dfy ===
/** The binary operators of `ConvertibleCurrency`: `+ - * /` and the
    comparisons `==`, `===` and `<=>`.

    Every one of them first calls `other.to_currency(...)`, which relabels
    the operand in place and never converts it. So the operators work on the
    raw amounts whatever the two currencies are, and they leave the operand
    relabelled. Each function returns its result together with the operand
    as it stands afterwards; the receiver itself is never assigned to. The
    operand is taken to be a different object from the receiver. */
module Arithmetic {

  import opened Wrappers
  import opened MultiCurrency

  datatype Op = Plus | Minus | Times | Divide

  /** Float arithmetic on two amounts, as a `real` operation. */
  function Combine(op: Op, a: real, b: real): real
    requires op.Divide? ==> b != 0.0
  {
    match op
    case Plus => a + b
    case Minus => a - b
    case Times => a * b
    case Divide => a / b
  }

  /** `other.to_currency(target)`: the operand afterwards, which is also
      the object whose `base_value` the operator reads. */
  function Relabel(other: ConvertibleCurrency, target: Option<string>, rates: Rates, now: int): (r: ConvertibleCurrency)
    ensures r.baseValue == other.baseValue
    ensures r.currency == target && r.year.None?
  {
    ToCurrency(other, target, None, rates, now).value.after
  }

  /** `self OP other` for `+ - * /`: a new value built from the receiver's
      amount combined with the amount of the relabelled operand, tagged with
      the receiver's currency or else the operand's. That currency is read
      after the relabelling has overwritten the operand's currency with the
      receiver's, and no year is passed. Division by a zero amount (a Float
      infinity or NaN) is excluded. */
  function Apply(op: Op, self: ConvertibleCurrency, other: ConvertibleCurrency, rates: Rates, now: int)
    : (r: (ConvertibleCurrency, ConvertibleCurrency))
    requires op.Divide? ==> other.baseValue != 0.0
    ensures r.0.baseValue == Combine(op, self.baseValue, other.baseValue)
    ensures r.0.currency == self.currency
    ensures r.0.year == Some(now)
    ensures r.1 == ConvertibleCurrency(other.baseValue, self.currency, None)
  {
    var other' := Relabel(other, self.currency, rates, now);
    (New(Combine(op, self.baseValue, other'.baseValue), self.currency.Or(other'.currency), None, now), other')
  }

  /** The operators never convert: the outcome does not depend on the rate
      table at all, whatever the two currencies are. */
  lemma ApplyIgnoresRates(op: Op, self: ConvertibleCurrency, other: ConvertibleCurrency, rates1: Rates, rates2: Rates, now: int)
    requires op.Divide? ==> other.baseValue != 0.0
    ensures Apply(op, self, other, rates1, now) == Apply(op, self, other, rates2, now)
  {
  }

  /** An anonymous receiver does not inherit the operand's currency: the
      operand's currency is gone before `@currency || other.currency` is
      read. */
  lemma AnonymousReceiverStaysAnonymous(op: Op, self: ConvertibleCurrency, other: ConvertibleCurrency, rates: Rates, now: int)
    requires op.Divide? ==> other.baseValue != 0.0
    requires self.currency.None? && other.currency.Some?
    ensures Apply(op, self, other, rates, now).0.currency.None?
    ensures Apply(op, self, other, rates, now).1.currency.None?
  {
  }

  /** `self == other`: `other.to_currency` with no argument, which makes the
      operand anonymous, then a comparison of the raw amounts. */
  function Equal(self: ConvertibleCurrency, other: ConvertibleCurrency, rates: Rates, now: int): (r: (bool, ConvertibleCurrency))
    ensures r.0 <==> self.baseValue == other.baseValue
    ensures r.1 == ConvertibleCurrency(other.baseValue, None, None)
  {
    var other' := Relabel(other, None, rates, now);
    (self.baseValue == other'.baseValue, other')
  }

  /** `self === other`: the operand is relabelled with the receiver's
      currency, then the raw amounts are compared. */
  function CaseEqual(self: ConvertibleCurrency, other: ConvertibleCurrency, rates: Rates, now: int): (r: (bool, ConvertibleCurrency))
    ensures r.0 <==> self.baseValue == other.baseValue
    ensures r.1 == ConvertibleCurrency(other.baseValue, self.currency, None)
  {
    var other' := Relabel(other, self.currency, rates, now);
    (self.baseValue == other'.baseValue, other')
  }

  /** Float's `<=>` on two amounts. */
  function Spaceship(a: real, b: real): int {
    if a < b then -1 else if a == b then 0 else 1
  }

  /** `self <=> other`: the operand is relabelled with the receiver's
      currency, then the raw amounts are compared three ways. `Comparable`
      derives `<`, `<=`, `>`, `>=` and `between?` from this. */
  function Compare(self: ConvertibleCurrency, other: ConvertibleCurrency, rates: Rates, now: int): (r: (int, ConvertibleCurrency))
    ensures r.0 < 0 <==> self.baseValue < other.baseValue
    ensures r.0 == 0 <==> self.baseValue == other.baseValue
    ensures r.0 > 0 <==> self.baseValue > other.baseValue
    ensures r.1 == ConvertibleCurrency(other.baseValue, self.currency, None)
  {
    var other' := Relabel(other, self.currency, rates, now);
    (Spaceship(self.baseValue, other'.baseValue), other')
  }

  /** The three comparisons agree with one another, whatever the currencies:
      `==` and `===` hold exactly when `<=>` answers 0. */
  lemma ComparisonsAgree(self: ConvertibleCurrency, other: ConvertibleCurrency, rates: Rates, now: int)
    ensures Equal(self, other, rates, now).0 == CaseEqual(self, other, rates, now).0
    ensures CaseEqual(self, other, rates, now).0 <==> Compare(self, other, rates, now).0 == 0
  {
  }

  /** `<=>` is antisymmetric when the roles are swapped, and it ignores the
      currencies: retagging either side with any currency, or none, does not
      change its answer. */
  lemma CompareAntisymmetric(a: ConvertibleCurrency, b: ConvertibleCurrency, ca: Option<string>, cb: Option<string>,
                             rates: Rates, now: int)
    ensures Compare(a, b, rates, now).0 == -Compare(b, a, rates, now).0
    ensures Compare(a, b, rates, now).0 == Compare(a.(currency := ca), b.(currency := cb), rates, now).0
  {
  }

  /** The order `<=>` induces is transitive: `Comparable`'s `<` chains. */
  lemma CompareTransitive(a: ConvertibleCurrency, b: ConvertibleCurrency, c: ConvertibleCurrency, rates: Rates, now: int)
    requires Compare(a, b, rates, now).0 < 0 && Compare(b, c, rates, now).0 < 0
    ensures Compare(a, c, rates, now).0 < 0
  {
  }
}

=== FILE: display.dfy ===
/** The numeric coercions `to_i` and `to_f`, and `to_s`.

    `to_s` reads a process-wide display currency
    (`MultiCurrency.output_currency`), which is the parameter `override`
    here, and renders with ActionView's `number_with_delimiter`, which is
    the uninterpreted parameter `delimit`. */
module Display {

  import opened Wrappers
  import opened MultiCurrency

  /** Float#round: to the nearest integer, halves away from zero. */
  function Round(x: real): (r: int)
    ensures r as real - x <= 0.5 && x - r as real <= 0.5
    ensures r as real - x == 0.5 ==> x >= 0.0
    ensures x - r as real == 0.5 ==> x < 0.0
  {
    if x >= 0.0 then (x + 0.5).Floor else -((-x + 0.5).Floor)
  }

  /** No integer is closer to `x` than `Round(x)`. */
  lemma RoundIsNearest(x: real, n: int)
    ensures var d := Round(x) as real - x; var e := n as real - x;
            (if d < 0.0 then -d else d) <= (if e < 0.0 then -e else e)
  {
    var r := Round(x);
    if n > r {
      assert n as real >= r as real + 1.0;
    } else if n < r {
      assert n as real <= r as real - 1.0;
    }
  }

  /** Rounding commutes with negation, so ties go away from zero on both
      sides. */
  lemma RoundIsOdd(x: real)
    ensures Round(-x) == -Round(x)
  {
  }

  /** `to_i`: the rounded amount, no conversion. */
  function ToI(x: ConvertibleCurrency): (r: int)
    ensures r as real - x.baseValue <= 0.5 && x.baseValue - r as real <= 0.5
    ensures r as real - x.baseValue == 0.5 ==> x.baseValue >= 0.0
    ensures x.baseValue - r as real == 0.5 ==> x.baseValue < 0.0
  {
    Round(x.baseValue)
  }

  /** `to_f`: the amount as it is, no conversion. */
  function ToF(x: ConvertibleCurrency): real {
    x.baseValue
  }

  /** `to_s(unit)`: convert into the display currency (the override if set,
      else the value's own), round, delimit, and append " <currency>" when
      there is a display currency and `unit` is set. Conversion may raise,
      and may retag an anonymous zero in place: the receiver afterwards is
      returned with the text. */
  function ToS(x: ConvertibleCurrency, unit: bool, override: Option<string>, rates: Rates, now: int,
               delimit: int -> string): (r: Result<(string, ConvertibleCurrency), ConversionError>)
    ensures override.None? ==> r.Success? && r.value.1 == x
    ensures r.Success? && unit && override.Or(x.currency).Some? ==>
              var suffix := " " + override.Or(x.currency).value;
              |suffix| <= |r.value.0| && r.value.0[|r.value.0| - |suffix|..] == suffix
    ensures r.Success? && !unit ==> exists n :: r.value.0 == delimit(n)
    ensures r.Failure? ==> override.Some? && override != x.currency
    ensures !Blank(override) && x.currency.None? && x.baseValue == 0.0 ==>
              r.Success? && r.value.1 == x.(currency := override)
  {
    var output := override.Or(x.currency);
    match In(x, output, rates, now)
    case Failure(e) => Failure(e)
    case Success(converted) =>
      var number := delimit(Round(converted.Value().baseValue));
      var text := if output.Some? && unit then number + " " + output.value else number;
      Success((text, converted.ReceiverAfter(x)))
  }

  /** Without an override a value is shown in its own currency: nothing is
      converted, nothing raises, and the number is its own rounded amount. */
  lemma ToSInOwnCurrency(x: ConvertibleCurrency, unit: bool, rates: Rates, now: int, delimit: int -> string)
    ensures ToS(x, unit, None, rates, now, delimit) ==
            Success((if unit && x.currency.Some? then delimit(Round(x.baseValue)) + " " + x.currency.value
                     else delimit(Round(x.baseValue)), x))
  {
  }

  /** With an override the shown number is the converted amount, rounded,
      with the override's suffix when `unit` is set; the receiver is left
      alone. */
  lemma ToSConverts(x: ConvertibleCurrency, target: string, unit: bool, rates: Rates, now: int, delimit: int -> string)
    requires !Blank(Some(target)) && x.currency.Some? && x.currency != Some(target)
    requires RateKey(x.currency.value, target, x.year) in rates
    ensures var number := delimit(Round(x.baseValue * rates[RateKey(x.currency.value, target, x.year)]));
            ToS(x, unit, Some(target), rates, now, delimit) ==
            Success((if unit then number + " " + target else number, x))
  {
    InConverts(x, Some(target), rates, now);
    var amount := x.baseValue * rates[RateKey(x.currency.value, target, x.year)];
    var converted := In(x, Some(target), rates, now).value;
    assert converted.Value().baseValue == amount;
    assert converted.ReceiverAfter(x) == x;
  }
}

=== FILE: multi_currency.dfy ===
/** The value record of `MultiCurrency::ConvertibleCurrency`, its constructor
    and its two conversion entry points, `in` and `to_currency`.

    Ruby objects are references; here every operation that assigns to an
    instance variable returns the updated record instead, and `in` says
    whether what it returned is the receiver itself (possibly retagged in
    place) or a newly constructed value. The exchange-rate table behind
    `ExchangeRate.find_rate` is a finite map, the current calendar year is
    the parameter `now`, and a Float amount is a `real`. */
module MultiCurrency {

  import opened Wrappers
  import AmountText

  /** `base_value`, `@currency` (`None` = anonymous) and `@year`. The
      constructor always sets a year, but `to_currency` can overwrite it with
      `nil`. */
  datatype ConvertibleCurrency = ConvertibleCurrency(baseValue: real, currency: Option<string>, year: Option<int>)

  /** The arguments of `ExchangeRate.find_rate(from, to, year)`. */
  datatype RateKey = RateKey(from: string, to: string, year: Option<int>)

  /** The rates `find_rate` can find; a missing key is the `RecordNotFound`
      (or `NoMethodError`) that `in` rescues. */
  type Rates = map<RateKey, real>

  /** The two exceptions `in` raises, with what their messages name. */
  datatype ConversionError =
    | ConversionOfAnonymousCurrency(target: string)
    | ExchangeRateUnavailable(from: string, to: string, year: Option<int>)

  /** What `in` returned: `self` (after any in-place assignment) or a new
      object, in which case the receiver is untouched. */
  datatype Returned = Receiver(after: ConvertibleCurrency) | Fresh(result: ConvertibleCurrency) {

    /** The returned object. */
    function Value(): ConvertibleCurrency {
      if Receiver? then after else result
    }

    /** The receiver once the call is over, given the receiver before it. */
    function ReceiverAfter(before: ConvertibleCurrency): ConvertibleCurrency {
      if Receiver? then after else before
    }
  }

  /** ASCII whitespace, the characters `blank?` ignores. */
  predicate IsSpace(c: char) {
    c == ' ' || 9 <= c as int <= 13
  }

  /** `currency.blank?`: `nil`, empty, or whitespace only. */
  predicate Blank(currency: Option<string>) {
    currency.None? || forall i :: 0 <= i < |currency.value| ==> IsSpace(currency.value[i])
  }

  // ---------------------------------------------------------------------
  // Construction
  // ---------------------------------------------------------------------

  /** `ConvertibleCurrency.new(value, currency, base_year)` for a numeric
      `value`; an omitted or `nil` year means the current one. */
  function New(value: real, currency: Option<string>, baseYear: Option<int>, now: int): (r: ConvertibleCurrency)
    ensures r.baseValue == value && r.currency == currency
    ensures r.year.Some?
    ensures baseYear.Some? ==> r.year == baseYear
    ensures baseYear.None? ==> r.year == Some(now)
  {
    ConvertibleCurrency(value, currency, Some(baseYear.GetOr(now)))
  }

  /** `ConvertibleCurrency.new(text, currency, base_year)`: the text goes
      through both rewrites and then through `to_f`, which stays a
      parameter here. What `to_f` reads is the rewritten text, which is
      never longer than the input and has exactly its digits, in order: the
      rewrites only drop group separators and turn one separator into '.'. */
  function NewFromText(text: string, currency: Option<string>, baseYear: Option<int>, now: int,
                       toF: string -> real): (r: ConvertibleCurrency)
    ensures var t := AmountText.Rewrite(text);
            && r.baseValue == toF(t)
            && AmountText.Digits(t) == AmountText.Digits(text)
            && |t| <= |text|
    ensures r.currency == currency
    ensures r.year == Some(baseYear.GetOr(now))
  {
    AmountText.RewriteKeepsDigits(text);
    New(toF(AmountText.Rewrite(text)), currency, baseYear, now)
  }

  // ---------------------------------------------------------------------
  // in(currency)
  // ---------------------------------------------------------------------

  /** `x.in(target)`. */
  function In(x: ConvertibleCurrency, target: Option<string>, rates: Rates, now: int): (r: Result<Returned, ConversionError>)
    ensures r.Success? && !Blank(target) ==> r.value.Value().currency == target
    ensures r.Success? && r.value.Receiver? ==> r.value.after.baseValue == x.baseValue && r.value.after.year == x.year
    ensures r.Success? && r.value.Fresh? ==>
              && x.currency.Some? && target.Some?
              && RateKey(x.currency.value, target.value, x.year) in rates
              && r.value.result.baseValue == x.baseValue * rates[RateKey(x.currency.value, target.value, x.year)]
    ensures r.Failure? ==> !Blank(target) && x.currency != target
  {
    if Blank(target) || x.currency == target then
      Success(Receiver(x))
    else if x.baseValue == 0.0 && x.currency.None? then
      Success(Receiver(x.(currency := target)))
    else if x.currency.None? then
      Failure(ConversionOfAnonymousCurrency(target.value))
    else
      var key := RateKey(x.currency.value, target.value, x.year);
      if key in rates then
        Success(Fresh(New(x.baseValue * rates[key], target, x.year, now)))
      else
        Failure(ExchangeRateUnavailable(key.from, key.to, key.year))
  }

  /** The key `in` hands to `find_rate`, or `None` when it returns or raises
      before the lookup. */
  function LookupKey(x: ConvertibleCurrency, target: Option<string>): Option<RateKey> {
    if Blank(target) || x.currency == target || x.currency.None? then None
    else Some(RateKey(x.currency.value, target.value, x.year))
  }

  /** Two rate tables that give the same answer for `key`. */
  predicate AgreeOn(rates1: Rates, rates2: Rates, key: Option<RateKey>) {
    || key.None?
    || (&& (key.value in rates1 <==> key.value in rates2)
        && (key.value in rates1 ==> rates1[key.value] == rates2[key.value]))
  }

  /** `in` consults the rate table at most at one key, and not at all when it
      returns or raises early: tables that agree there give the same
      outcome. */
  lemma InLooksUpOnlyItsKey(x: ConvertibleCurrency, target: Option<string>, rates1: Rates, rates2: Rates, now: int)
    requires AgreeOn(rates1, rates2, LookupKey(x, target))
    ensures In(x, target, rates1, now) == In(x, target, rates2, now)
  {
    if LookupKey(x, target).Some? {
      var key := LookupKey(x, target).value;
      assert key == RateKey(x.currency.value, target.value, x.year);
      if key in rates1 {
        var amount := x.baseValue * rates1[key];
        assert amount == x.baseValue * rates2[key];
        var expected: Result<Returned, ConversionError> := Success(Fresh(New(amount, target, x.year, now)));
        assert !Blank(target) && x.currency != target && x.currency.Some?;
        assert In(x, target, rates1, now).value.result == New(amount, target, x.year, now);
        assert In(x, target, rates1, now) == expected;
        assert In(x, target, rates2, now).value.result == New(amount, target, x.year, now);
        assert In(x, target, rates2, now) == expected;
      }
    }
  }

  /** A blank target, or the currency the value already has: `self` comes
      back unchanged and no rate is looked up. */
  lemma InNoOp(x: ConvertibleCurrency, target: Option<string>)
    requires Blank(target) || x.currency == target
    ensures LookupKey(x, target).None?
    ensures forall rates, now :: In(x, target, rates, now) == Success(Receiver(x))
  {
  }

  /** An anonymous zero is retagged in place with the target, keeping its
      amount and year, without a lookup. */
  lemma InRetagsAnonymousZero(x: ConvertibleCurrency, target: Option<string>)
    requires !Blank(target) && x.currency.None? && x.baseValue == 0.0
    ensures LookupKey(x, target).None?
    ensures forall rates, now :: In(x, target, rates, now) ==
                                 Success(Receiver(ConvertibleCurrency(0.0, target, x.year)))
  {
  }

  /** A non-zero anonymous amount cannot be converted. */
  lemma InRejectsAnonymous(x: ConvertibleCurrency, target: Option<string>)
    requires !Blank(target) && x.currency.None? && x.baseValue != 0.0
    ensures LookupKey(x, target).None?
    ensures forall rates, now :: In(x, target, rates, now) ==
                                 Failure(ConversionOfAnonymousCurrency(target.value))
  {
  }

  /** A known currency and a different target: with a rate, a new value
      holding amount times rate in the target currency, the same year (the
      current one if the value had none), and the receiver untouched;
      without, `ExchangeRateUnavailable` naming the triple looked up. */
  lemma InConverts(x: ConvertibleCurrency, target: Option<string>, rates: Rates, now: int)
    requires !Blank(target) && x.currency.Some? && x.currency != target
    ensures LookupKey(x, target) == Some(RateKey(x.currency.value, target.value, x.year))
    ensures RateKey(x.currency.value, target.value, x.year) in rates ==>
              && In(x, target, rates, now).Success?
              && In(x, target, rates, now).value.Fresh?
              && In(x, target, rates, now).value.result.baseValue ==
                 x.baseValue * rates[RateKey(x.currency.value, target.value, x.year)]
              && In(x, target, rates, now).value.result.currency == target
              && In(x, target, rates, now).value.result.year == Some(x.year.GetOr(now))
    ensures RateKey(x.currency.value, target.value, x.year) !in rates ==>
              In(x, target, rates, now) ==
              Failure(ExchangeRateUnavailable(x.currency.value, target.value, x.year))
  {
  }

  /** Exactly when `in` raises, and which exception. */
  lemma InFailsIff(x: ConvertibleCurrency, target: Option<string>, rates: Rates, now: int)
    ensures In(x, target, rates, now).Failure? <==>
              && !Blank(target) && x.currency != target
              && (x.currency.None? ==> x.baseValue != 0.0)
              && (x.currency.Some? ==> RateKey(x.currency.value, target.value, x.year) !in rates)
    ensures target.Some? && In(x, target, rates, now) == Failure(ConversionOfAnonymousCurrency(target.value)) <==>
              !Blank(target) && x.currency.None? && x.baseValue != 0.0
  {
  }

  /** Converting there and back with reciprocal rates restores the amount,
      currency and year. */
  lemma {:induction false} InRoundTrip(x: ConvertibleCurrency, a: string, b: string, year: int, rate: real,
                                       rates: Rates, now: int)
    requires x.currency == Some(a) && x.year == Some(year)
    requires !Blank(Some(a)) && !Blank(Some(b)) && a != b
    requires rate != 0.0
    requires RateKey(a, b, Some(year)) in rates && rates[RateKey(a, b, Some(year))] == rate
    requires RateKey(b, a, Some(year)) in rates && rates[RateKey(b, a, Some(year))] == 1.0 / rate
    ensures In(x, Some(b), rates, now).Success?
    ensures var there := In(x, Some(b), rates, now).value.Value();
            && In(there, Some(a), rates, now).Success?
            && In(there, Some(a), rates, now).value.Value() == x
  {
    var there := In(x, Some(b), rates, now).value.Value();
    assert there == ConvertibleCurrency(x.baseValue * rate, Some(b), Some(year));
    var back := In(there, Some(a), rates, now).value.Value();
    assert back.baseValue == x.baseValue * rate * (1.0 / rate);
    assert x.baseValue * rate * (1.0 / rate) == x.baseValue * (rate * (1.0 / rate));
  }

  // ---------------------------------------------------------------------
  // to_currency(currency = nil, base_year = nil)
  // ---------------------------------------------------------------------

  /** `x.to_currency(target, baseYear)`: it assigns both instance variables
      first and only then calls `in(target)`, whose "already in that
      currency" test therefore always succeeds. It never raises, never
      consults the rates, and returns the receiver relabelled with its
      amount unchanged. */
  function ToCurrency(x: ConvertibleCurrency, target: Option<string>, baseYear: Option<int>, rates: Rates, now: int)
    : (r: Result<Returned, ConversionError>)
    ensures r == Success(Receiver(ConvertibleCurrency(x.baseValue, target, baseYear)))
  {
    var relabelled := x.(currency := target, year := baseYear);
    InNoOp(relabelled, target);
    In(relabelled, target, rates, now)
  }
}

=== FILE: repaired.dfy ===
/** `to_currency` assigns `@currency = currency` before calling
    `self.in(currency)`, so the "already in that currency" test inside `in`
    always succeeds and nothing is ever converted; every operator inherits
    this. This module shows the discrepancy on concrete values and gives the
    evidently intended versions: `to_currency` converting from the currency
    the value had before the call, and the operators built on it. */
module Repaired {

  import opened Wrappers
  import opened MultiCurrency
  import opened Arithmetic

  /** The receiver with its reference year replaced when one is given. */
  function WithYear(x: ConvertibleCurrency, baseYear: Option<int>): (r: ConvertibleCurrency)
    ensures r.baseValue == x.baseValue && r.currency == x.currency
    ensures r.year == (if baseYear.Some? then baseYear else x.year)
  {
    x.(year := baseYear.Or(x.year))
  }

  /** `to_currency` as intended: the year argument (when given) selects the
      rate year, and the currency test compares the target against the
      currency the value had before the call. */
  function ConvertTo(x: ConvertibleCurrency, target: Option<string>, baseYear: Option<int>, rates: Rates, now: int)
    : (r: Result<Returned, ConversionError>)
    ensures r.Success? && !Blank(target) ==> r.value.Value().currency == target
    ensures r.Failure? ==> !Blank(target) && x.currency != target
  {
    In(WithYear(x, baseYear), target, rates, now)
  }

  /** The intended property: with a rate from the value's own currency, the
      result holds the converted amount in the target currency. */
  lemma ConvertToConverts(x: ConvertibleCurrency, target: string, baseYear: Option<int>, rates: Rates, now: int)
    requires !Blank(Some(target)) && x.currency.Some? && x.currency != Some(target)
    requires RateKey(x.currency.value, target, WithYear(x, baseYear).year) in rates
    ensures var r := ConvertTo(x, Some(target), baseYear, rates, now);
            && r.Success? && r.value.Fresh?
            && r.value.result.baseValue == x.baseValue * rates[RateKey(x.currency.value, target, WithYear(x, baseYear).year)]
            && r.value.result.currency == Some(target)
  {
    InConverts(WithYear(x, baseYear), Some(target), rates, now);
  }

  /** Both versions agree when the target is the value's own currency and
      the year argument is the value's own year. */
  lemma ConvertToAgreesWhenNothingToConvert(x: ConvertibleCurrency, target: Option<string>, rates: Rates, now: int)
    requires x.currency == target
    requires x.year.Some?
    ensures ConvertTo(x, target, x.year, rates, now) == ToCurrency(x, target, x.year, rates, now)
  {
    InNoOp(x, target);
  }

  /** With `to_currency`'s default `nil` year, the form every operator uses,
      the two versions part even for the value's own currency: the written
      one erases the year, the corrected one keeps it. */
  lemma ConvertToKeepsYearWhereToCurrencyErasesIt(x: ConvertibleCurrency, rates: Rates, now: int)
    requires x.year.Some?
    ensures ToCurrency(x, x.currency, None, rates, now) == Success(Receiver(x.(year := None)))
    ensures ConvertTo(x, x.currency, None, rates, now) == Success(Receiver(x))
    ensures ConvertTo(x, x.currency, None, rates, now) != ToCurrency(x, x.currency, None, rates, now)
  {
    assert WithYear(x, None) == x;
    InNoOp(x, x.currency);
  }

  /** The discrepancy on concrete values: 10 USD with a USD->EUR rate of 0.5
      for 2020. `to_currency("EUR", 2020)` as written yields 10 EUR; the
      intended conversion yields 5 EUR. */
  lemma ToCurrencyRelabelsInsteadOfConverting()
    ensures var usd := ConvertibleCurrency(10.0, Some("USD"), Some(2020));
            var rates := map[RateKey("USD", "EUR", Some(2020)) := 0.5];
            && ToCurrency(usd, Some("EUR"), Some(2020), rates, 2024).value.Value() ==
               ConvertibleCurrency(10.0, Some("EUR"), Some(2020))
            && ConvertTo(usd, Some("EUR"), Some(2020), rates, 2024).value.Value() ==
               ConvertibleCurrency(5.0, Some("EUR"), Some(2020))
  {
    var usd := ConvertibleCurrency(10.0, Some("USD"), Some(2020));
    var rates := map[RateKey("USD", "EUR", Some(2020)) := 0.5];
    assert !IsSpace("EUR"[0]);
    ConvertToConverts(usd, "EUR", Some(2020), rates, 2024);
  }

  /** Every rate in the table is positive, so converting a non-zero amount
      keeps it non-zero. */
  predicate PositiveRates(rates: Rates) {
    forall k :: k in rates ==> rates[k] > 0.0
  }

  /** The operators as intended: the operand is converted into the
      receiver's currency (left alone when the receiver is anonymous), the
      result takes the receiver's currency or else the operand's, and a
      failed conversion raises. The year is still left to the constructor,
      as in the source. */
  function ApplyConverted(op: Op, self: ConvertibleCurrency, other: ConvertibleCurrency, rates: Rates, now: int)
    : (r: Result<(ConvertibleCurrency, ConvertibleCurrency), ConversionError>)
    requires op.Divide? ==> other.baseValue != 0.0 && PositiveRates(rates)
    ensures r.Success? ==> r.value.0.currency == self.currency.Or(other.currency)
    ensures r.Success? ==> r.value.0.year == Some(now)
    ensures r.Failure? ==> self.currency.Some? && other.currency != self.currency
  {
    match ConvertTo(other, self.currency, None, rates, now)
    case Failure(e) => Failure(e)
    case Success(converted) =>
      var operand := converted.Value();
      var other' := converted.ReceiverAfter(other);
      assert op.Divide? ==> operand.baseValue != 0.0;
      Success((New(Combine(op, self.baseValue, operand.baseValue), self.currency.Or(other'.currency), None, now), other'))
  }

  /** The intended property: two different known currencies combine after
      converting the operand at the operand's own year, and the operand is
      left as it was. */
  lemma ApplyConvertedConverts(op: Op, self: ConvertibleCurrency, other: ConvertibleCurrency, rates: Rates, now: int)
    requires op.Divide? ==> other.baseValue != 0.0 && PositiveRates(rates)
    requires self.currency.Some? && !Blank(self.currency)
    requires other.currency.Some? && other.currency != self.currency
    requires RateKey(other.currency.value, self.currency.value, other.year) in rates
    ensures var rate := rates[RateKey(other.currency.value, self.currency.value, other.year)];
            var r := ApplyConverted(op, self, other, rates, now);
            && r.Success?
            && r.value.0.baseValue == Combine(op, self.baseValue, other.baseValue * rate)
            && r.value.0.currency == self.currency
            && r.value.1 == other
  {
    InConverts(other, self.currency, rates, now);
    assert WithYear(other, None) == other;
  }

  /** With equal currencies nothing needs converting, and the intended
      operators give the same value as the operators as written; this is
      why the defect only shows across currencies. */
  lemma ApplyConvertedAgreesOnSameCurrency(op: Op, self: ConvertibleCurrency, other: ConvertibleCurrency, rates: Rates, now: int)
    requires op.Divide? ==> other.baseValue != 0.0 && PositiveRates(rates)
    requires self.currency == other.currency
    ensures ApplyConverted(op, self, other, rates, now).Success?
    ensures ApplyConverted(op, self, other, rates, now).value.0 == Apply(op, self, other, rates, now).0
  {
    assert WithYear(other, None) == other;
    InNoOp(other, self.currency);
  }

  /** An anonymous receiver takes the operand's currency, which the
      operators as written lose. */
  lemma ApplyConvertedInheritsCurrency(op: Op, self: ConvertibleCurrency, other: ConvertibleCurrency, rates: Rates, now: int)
    requires op.Divide? ==> other.baseValue != 0.0 && PositiveRates(rates)
    requires self.currency.None?
    ensures ApplyConverted(op, self, other, rates, now).Success?
    ensures ApplyConverted(op, self, other, rates, now).value.0.currency == other.currency
    ensures ApplyConverted(op, self, other, rates, now).value.1 == other
  {
    assert WithYear(other, None) == other;
    InNoOp(other, None);
  }

  /** The discrepancy on concrete values: 10 USD + 5 EUR with an EUR->USD
      rate of 2 for 2020 is 15 USD as written and 20 USD as intended, and
      anonymous 0 + 5 USD is anonymous as written and USD as intended. */
  lemma OperatorsIgnoreCurrencies()
    ensures var rates := map[RateKey("EUR", "USD", Some(2020)) := 2.0];
            var usd := ConvertibleCurrency(10.0, Some("USD"), Some(2020));
            var eur := ConvertibleCurrency(5.0, Some("EUR"), Some(2020));
            && Apply(Plus, usd, eur, rates, 2024).0.baseValue == 15.0
            && ApplyConverted(Plus, usd, eur, rates, 2024).Success?
            && ApplyConverted(Plus, usd, eur, rates, 2024).value.0.baseValue == 20.0
    ensures var zero := ConvertibleCurrency(0.0, None, Some(2020));
            var usd := ConvertibleCurrency(5.0, Some("USD"), Some(2020));
            && Apply(Plus, zero, usd, map[], 2024).0.currency.None?
            && ApplyConverted(Plus, zero, usd, map[], 2024).Success?
            && ApplyConverted(Plus, zero, usd, map[], 2024).value.0.currency == Some("USD")
  {
    var rates := map[RateKey("EUR", "USD", Some(2020)) := 2.0];
    var usd := ConvertibleCurrency(10.0, Some("USD"), Some(2020));
    var eur := ConvertibleCurrency(5.0, Some("EUR"), Some(2020));
    assert !IsSpace("USD"[0]);
    ApplyConvertedConverts(Plus, usd, eur, rates, 2024);
    var zero := ConvertibleCurrency(0.0, None, Some(2020));
    var five := ConvertibleCurrency(5.0, Some("USD"), Some(2020));
    ApplyConvertedInheritsCurrency(Plus, zero, five, map[], 2024);
  }
}

=== FILE: wrappers.dfy ===
/** Ruby's `nil`-or-object values, and the outcome of a call that either
    returns or raises. */
module Wrappers {

  /** `None` stands for Ruby's `nil`. */
  datatype Option<+T> = None | Some(value: T) {

    /** The value, or `default` when this is `None`. */
    function GetOr(default: T): T {
      match this
      case Some(v) => v
      case None => default
    }

    /** Ruby's `self || other`: the left operand unless it is `nil`. */
    function Or(other: Option<T>): (r: Option<T>)
      ensures r.Some? <==> Some? || other.Some?
      ensures Some? ==> r == this
    {
      if Some? then this else other
    }
  }

  /** The value an operation returns, or the exception it raises. */
  datatype Result<+R, +E> = Success(value: R) | Failure(error: E)
}
